=== FILE: README.md ===
# Password generator core, modelled in Dafny

This project models the password-policy core of a small command-line password
generator: how a class-options dictionary becomes a character lexicon, how the
verification regular expression is written and what it matches, the rejection-sampling
loop that draws candidate passwords until one passes, the entropy-based strength
tier, and the command-line flag handling that feeds the core.

Modules, one per concept of the source:

- `Results` (results.dfy): `Option` and `Result`; each Python exception becomes a `Failure`.
- `CharClasses` (charclasses.dfy): the four classes, their keys and the `string` module alphabets.
- `Options` (options.dfy): the options dictionary as an insertion-ordered list of `(key, flag)`
  entries with distinct keys. Unknown keys are allowed. This module also holds the
  defaulting of `{}` inside `generate_password`.
- `Lexicon` (lexicon.dfy): `build_lexicon`.
- `Decimal` (decimal.dfy): Python's decimal rendering of an `int` and its inverse. It is
  needed for the length bound written into the pattern.
- `Verification` (verification.dfy): `build_verification_regex`, modelled in two ways.
  The first is the pattern text (`Serialize`, with the parser `Parse` as its inverse in
  both directions: every written text reads back as its pattern, and a text reads as a
  pattern only if it is exactly that pattern's text). The second is what that pattern matches under `re.match` (`Matches`).
- `Generation` (generation.dfy): `generate_password`, with the random source as an oracle.
- `Strength` (strength.dfy): `compute_password_strength`, using exact integer powers
  instead of floats.
- `CliArguments` (cli_arguments.dfy): `prepare_password_options`.

Key modelling decisions:

- The random source is a function `oracle: nat -> nat`. The `t`-th `random.choice` call of
  a run picks `lexicon[oracle(t) % |lexicon|]`. Attempt `k` uses draws `k*length` up to
  `k*length + length - 1`. Every sequence of choices is some oracle.
- The `while True` loop is observed for a given number of attempts (`attempts`). If every
  observed candidate was rejected, the outcome is `NotFinished`: the source would keep looping.
- "Entropy < t bits" with `n` lexicon characters and `L` password characters is decided
  exactly as `n^L < 2^t`. The strength result carries `combinations = n^L`, and the
  entropy is `log2(combinations)`.
- The regular expression's meaning is stated for Python's `re`: `.` does not match a
  line feed, a negated class does, and `$` also matches just before a final line feed.
  No lexicon contains a line feed, so the line-feed cases never affect a generated candidate.
- Generation defaults only an EMPTY dictionary to "every class"
  (core/password_generation.py:78). A non-empty all-false
  dictionary keeps only the length alternative (`AllFalseOptionsAcceptEveryCandidate`),
  and it gives the empty lexicon (`AllFalseGivesEmptyLexicon`). On the command-line path
  this cannot happen (`PreparePasswordOptions`).

## Model

| member | source | states |
|---|---|---|
| CharClasses.ClassOfKeyRoundTrip | core/password_generation.py:14-19 | The four `CHAR_OPTIONS` keys name four distinct classes. Each key reads back as its own class. |
| CharClasses.AlphabetSizes | core/password_generation.py:9-19 | The alphabets have 26, 26, 32 and 10 characters, so the default lexicon has 94. |
| CharClasses.RepresentsIffInAlphabet | core/password_generation.py:49-56 | Within the 94-character lexicon, the pattern's class tests (`a-z`, `A-Z`, outside `[a-zA-Z0-9]`, `0-9`) agree with membership in the class alphabets. |
| CharClasses.NoNewlineInFull | core/password_generation.py:9 | No class alphabet contains a line feed. |
| Options.Effective | core/password_generation.py:78-85 | An empty dictionary becomes one with all four classes enabled. A non-empty dictionary is kept unchanged, even when every flag is false. |
| Lexicon.JoinEnabledFollowsClassOrder | core/password_generation.py:30-31 | The four appended contributions are exactly the join along the class order lowercase, uppercase, specials, digits. |
| Lexicon.BuildLexicon | core/password_generation.py:22-34 | `None` or `{}` gives the 94-character default lexicon. Otherwise the lexicon is the enabled classes' alphabets joined in the fixed order lowercase, uppercase, specials, digits (`JoinIn(ClassOrder, m)`), whatever the dictionary's order; a character is in it iff some enabled class's alphabet has it, and the length is the sum of the enabled alphabets' sizes. Every character is in the default lexicon. |
| Lexicon.AllFalseGivesEmptyLexicon | core/password_generation.py:30-31 | A non-empty dictionary with every flag false gives the empty lexicon. |
| Lexicon.LexiconDependsOnlyOnEnabled | core/password_generation.py:31 | Two non-empty dictionaries that enable the same classes give the same lexicon. Insertion order and unknown keys do not matter. |
| Lexicon.LowercaseOnlyLexicon | core/password_generation.py:31 | `{"lowercase": True}` gives exactly the 26 lowercase letters. |
| Lexicon.LexiconHasNoNewline | core/password_generation.py:30-34 | No lexicon contains a line feed. |
| Lexicon.EnabledAlphabetInLexicon | core/password_generation.py:31 | The whole alphabet of every enabled class is in the lexicon. |
| Decimal.IntToStringRoundTrip | core/password_generation.py:47 | The decimal text written for the length bound reads back as the same integer, negative values included. |
| Decimal.CanonicalDigitsRoundTrip | core/password_generation.py:47 | Digits without a leading zero are exactly how `str` writes the number they spell. |
| Decimal.ParseIntOnlyReadsCanonical | core/password_generation.py:47 | A text reads as an integer only if it is exactly that integer's `str` text: no leading zeros, no `-0`. |
| Verification.MissingAlternatives | core/password_generation.py:48-56 | A class gets an alternative iff the dictionary enables it. Falsy entries and unknown keys contribute nothing. |
| Verification.AlternativesInInsertionOrder | core/password_generation.py:48 | Alternatives appear in the dictionary's insertion order, each class at most once. |
| Verification.BuildVerificationRegex | core/password_generation.py:37-59 | The pattern text parses back to a "shorter than `length`" bound `length - 1` followed by the enabled classes' alternatives. It starts with `^(.{0,` and ends with `)$`. It is the only text that parses to that pattern, so the bound is spelled as `str` writes it. |
| Verification.ParseSerialize | core/password_generation.py:47-59 | The pattern text determines the pattern: parsing undoes writing. |
| Verification.ParseOnlyReadsSerialize | core/password_generation.py:47-59 | A text parses to a pattern only if it is exactly the text written for that pattern: writing undoes parsing. |
| Verification.ShortStringsMatch | core/password_generation.py:47 | Every line-feed-free string shorter than `length` matches, so it would be rejected. |
| Verification.Matches | core/password_generation.py:87-96 | `re.match` of the anchored pattern: a short line-feed-free string matches, a string lacking a listed class matches, a short line followed by one final line feed still matches, and a line-feed-free string matches only through the length or a missing class. |
| Verification.MatchesIffClassMissing | core/password_generation.py:47-58 | A line-feed-free string of at least `length` characters matches iff some enabled class has no representative in it. |
| Verification.NotMatchedIffCovers | core/password_generation.py:47-58 | For a candidate of exactly `length` characters: no match iff it has a representative of every enabled class. |
| Verification.AllFalseOnlyChecksLength | core/password_generation.py:48-58 | With every flag false, no class alternative is emitted. Every long-enough line-feed-free string then passes. |
| Generation.Draw | core/password_generation.py:92 | `random.choice(lexicon)` yields a character of the lexicon, whatever the random source answers. |
| Generation.Candidate | core/password_generation.py:91-92 | The specification of one attempt: exactly `length` characters, each one from the lexicon. |
| Generation.SampleCandidate | core/password_generation.py:91-92 | One attempt builds, from an empty string, exactly that attempt's `length` oracle draws. |
| Generation.SampleUntilAccepted | core/password_generation.py:87-101 | The loop, checked with the compiled pattern, returns the first accepted candidate with all earlier ones rejected. If it returns none, every observed candidate was rejected. |
| Generation.Accepted | core/password_generation.py:78-101 | The candidate check after `{}` is defaulted: a line-feed-free string shorter than `length` is rejected; one of at least `length` characters is accepted iff it has a representative of every enabled class. |
| Generation.GeneratePassword | core/password_generation.py:62-103 | The length error happens iff `length < 8`, before any draw. Writing the bound fails (`BoundTooManyDigits`, Python's `ValueError` from `str`) iff `length >= 8` and `length - 1` has more than 4300 digits. Otherwise compiling the pattern fails (`RepetitionTooLarge`, Python's `OverflowError`) iff `length >= 8` and the bound `length - 1` reaches `MAXREPEAT` (2^32 - 1), also before any draw. The length is valid when neither error applies. An empty lexicon fails on the first draw: `EmptyLexicon` happens iff the length is valid, the lexicon is empty and at least one attempt is observed. Success happens iff the length is valid, the lexicon is non-empty and some observed candidate is accepted. A password has exactly `length` characters, all from the lexicon. It is not matched, and it covers every enabled class. It is the first accepted candidate, kept whole. `NotFinished` happens iff every observed candidate was rejected. |
| Generation.AcceptedCandidateHasEnabledAlphabets | core/password_generation.py:95-101 | An accepted candidate drawn from the lexicon `build_lexicon` gives for the same dictionary holds a character from the alphabet of every class the defaulted dictionary enables. |
| Generation.AcceptedCandidateCovers | core/password_generation.py:95-101 | An accepted candidate from a line-feed-free lexicon has a representative of every class the defaulted dictionary enables. |
| Generation.EmptyOptionsRequireEveryClass | core/password_generation.py:78-87 | For `{}`, the pattern is that of the all-true dictionary. It demands lowercase, uppercase, specials and digits, in that order. |
| Generation.AllFalseOptionsAcceptEveryCandidate | core/password_generation.py:78-87 | A non-empty all-false dictionary is not defaulted. Only the length alternative is left, and every candidate is accepted. |
| Generation.AcceptableCandidateExists | core/password_generation.py:90-101 | If the lexicon holds a representative of every enabled class and `length` is at least the number of alternatives, an acceptable candidate over the lexicon exists. |
| Strength.TierOf | core/password_generation.py:115-125 | The tier's rank (0 to 4) is the number of the thresholds 28, 35, 59 and 127 bits that the entropy reaches. |
| Strength.ComputePasswordStrength | core/password_generation.py:106-125 | An empty lexicon fails, as `log2(0)` does. Otherwise there are `n^L` equally likely passwords. "Very weak" iff entropy < 28, and "Very strong" iff entropy >= 127. The label is one the display layer knows. |
| Strength.LabelRoundTrip | core/password_generation.py:116-125 | Each tier's label reads back as that tier and is a key of the display colour table. |
| Strength.DisplayedLabelsAreTierLabels | cli/cli_ui.py:10-29 | A string has a colour iff it is a tier label, so `InvalidStrengthError` is never raised for a computed tier. |
| Strength.TierMonotoneInLength | core/password_generation.py:115-125 | A longer password over the same lexicon never gets a lower tier. |
| Strength.TierMonotoneInLexiconSize | core/password_generation.py:115-125 | A larger lexicon never gives a lower tier for the same length. |
| Strength.EntropyStrictlyIncreases | core/password_generation.py:115 | With at least two lexicon characters, entropy strictly grows with length. With a non-empty password, it strictly grows with lexicon size. |
| Strength.TierOfPowerOfTwoLexicon | core/password_generation.py:115-125 | With `2^k` characters, the tier counts the thresholds that `k * length` bits reach, each threshold inclusive. |
| Strength.ThresholdsAreHalfOpen | core/password_generation.py:116-125 | Exactly 28, 35, 59 and 127 bits give "Weak", "Reasonable", "Strong" and "Very strong". One bit less gives the tier below. |
| Strength.LowercaseExampleScore | core/password_generation.py:115-121 | 8 characters over 26 letters (about 37.6 bits) is "Reasonable". |
| Strength.FullLexiconExampleScore | core/password_generation.py:115-125 | 20 characters over the 94-character lexicon (about 131 bits) is "Very strong". |
| CliArguments.PreparePasswordOptions | cli/cli_arguments.py:31-57 | The length passes through unchanged. The dictionary has exactly the four known keys in fixed order. `--all` or no class flag enables every class; otherwise each class follows its flag. At least one class is on. |
| CliArguments.PreparedLexiconIsNonEmpty | cli/cli_arguments.py:39-57 | The lexicon of the prepared dictionary is never empty. It is the full 94-character lexicon when every class is selected. |
| CliArguments.PreparedOptionsAdmitAPassword | cli/cli_arguments.py:39-57 | On the command-line path the dictionary is never defaulted. For any length of 8 or more, an acceptable candidate over the prepared lexicon exists. |

## Left out

- Generation.GeneratePassword: the unbounded `while True` loop is observed for a given
  number of attempts. Non-termination shows up as `NotFinished`, not as divergence. The
  attempt budget is a modelling choice that keeps every method total and its loops
  bounded; for any budget, success is exactly "some attempt below the budget was accepted".
- Generation.GeneratePassword: the repetition limit is CPython's `MAXREPEAT` (2^32 - 1);
  another interpreter's limit, and memory exhaustion before it, are not modelled.
- Generation.GeneratePassword: the digit limit is CPython's default of 4300 digits for
  `str` of an `int`. A limit changed at run time (`sys.set_int_max_str_digits`, `-X
  int_max_str_digits`) and interpreters without the limit are not modelled.
- Generation.GeneratePassword: the pseudo-random generator is not modelled. Its
  wall-clock seeding and uniform distribution are out of scope, and so is the
  probability that the loop ends. Any sequence of choices is allowed.
- Strength.ComputePasswordStrength: the float entropy `len(password) * log2(len(lexicon))`
  is not returned. The result carries the exact count `n^L` instead. `math.log2`
  rounding could in principle differ from the exact comparison when the entropy is within
  one rounding error of a threshold. At the thresholds that can occur exactly (powers of
  two), Python's `log2` is exact.
- Verification.Matches: what the pattern matches is modelled only when `length >= 1`.
  For `length <= 0` Python reads `{0,-1}` as literal text. Only the pattern text is
  modelled there, and `generate_password` never builds such a pattern.
- The general regular-expression engine: only the constructs this pattern uses are given
  meaning.
- Dictionary values are booleans. Python's truthiness of other value types is not modelled.
- `parse_arguments` (argparse wrapper), password_gen.py (logging setup, seeding,
  exception-to-exit-code mapping, printing) and the colouring and printing in cli/cli_ui.py
  are I/O. The label lookup of cli/cli_ui.py is covered by `Strength.DisplayedLabelsAreTierLabels`.
- The exception classes `InvalidPasswordLengthError` and `InvalidStrengthError` are
  the `InvalidPasswordLength` error variant and an unreachable display failure. The
  `IndexError` of `random.choice("")` is `EmptyLexicon`.
- `logging.debug` calls.

=== FILE: charclasses.dfy ===
/** The four character classes of the password policy (`CHAR_OPTIONS` in
    core/password_generation.py) and their fixed ASCII alphabets. */
module CharClasses {
  import opened Results

  /** A character class a caller may enable. */
  datatype CharClass = Lowercase | Uppercase | Specials | Digits

  /** The iteration order of `CHAR_OPTIONS`, which fixes the lexicon's layout. */
  const ClassOrder: seq<CharClass> := [Lowercase, Uppercase, Specials, Digits]

  /** The dictionary key under which a class is selected. */
  function Key(c: CharClass): string
  {
    match c
    case Lowercase => "lowercase"
    case Uppercase => "uppercase"
    case Specials => "specials"
    case Digits => "digits"
  }

  /** The class a dictionary key names, if it is one of the four known keys. */
  function ClassOfKey(key: string): (r: Option<CharClass>)
    ensures r.Some? ==> Key(r.value) == key
    ensures r.None? ==> forall c :: Key(c) != key
  {
    if key == "lowercase" then Some(Lowercase)
    else if key == "uppercase" then Some(Uppercase)
    else if key == "specials" then Some(Specials)
    else if key == "digits" then Some(Digits)
    else None
  }

  /** Every class is found again from its key: the four keys are distinct. */
  lemma ClassOfKeyRoundTrip(c: CharClass)
    ensures ClassOfKey(Key(c)) == Some(c)
    ensures forall d :: Key(d) == Key(c) ==> d == c
  {
  }

  /** Python's `string.ascii_lowercase`. */
  const AsciiLowercase: string := "abcdefghijklmnopqrstuvwxyz"
  /** Python's `string.ascii_uppercase`. */
  const AsciiUppercase: string := "ABCDEFGHIJKLMNOPQRSTUVWXYZ"
  /** Python's `string.punctuation`: the 32 printable ASCII symbols. */
  const Punctuation: string := "!\"#$%&'()*+,-./:;<=>?@[\\]^_`{|}~"
  /** Python's `string.digits`. */
  const AsciiDigits: string := "0123456789"

  /** The alphabet `CHAR_OPTIONS` associates with a class. */
  function Alphabet(c: CharClass): string
  {
    match c
    case Lowercase => AsciiLowercase
    case Uppercase => AsciiUppercase
    case Specials => Punctuation
    case Digits => AsciiDigits
  }

  /** The default lexicon: all four alphabets in the fixed class order. */
  const FullAlphabet: string := AsciiLowercase + AsciiUppercase + Punctuation + AsciiDigits

  predicate IsLower(ch: char) { 'a' <= ch <= 'z' }
  predicate IsUpper(ch: char) { 'A' <= ch <= 'Z' }
  predicate IsDigit(ch: char) { '0' <= ch <= '9' }
  predicate IsAlnum(ch: char) { IsLower(ch) || IsUpper(ch) || IsDigit(ch) }

  /** Whether `ch` witnesses class `c` in the sense of the verification pattern:
      `[a-z]`, `[A-Z]`, anything outside `[a-zA-Z0-9]`, and `[0-9]` respectively. */
  predicate Represents(c: CharClass, ch: char)
  {
    match c
    case Lowercase => IsLower(ch)
    case Uppercase => IsUpper(ch)
    case Specials => !IsAlnum(ch)
    case Digits => IsDigit(ch)
  }

  /** The alphabet sizes: 26 + 26 + 32 + 10 = 94 characters in the default lexicon. */
  lemma AlphabetSizes()
    ensures |Alphabet(Lowercase)| == 26 && |Alphabet(Uppercase)| == 26
    ensures |Alphabet(Specials)| == 32 && |Alphabet(Digits)| == 10
    ensures |FullAlphabet| == 94
  {
  }

  /** Every character of a class alphabet is a representative of that class. */
  lemma AlphabetRepresents(c: CharClass, ch: char)
    requires ch in Alphabet(c)
    ensures Represents(c, ch)
  {
    match c
    case Lowercase => LowercaseRange(ch);
    case Uppercase => UppercaseRange(ch);
    case Specials => PunctuationNotAlnum(ch);
    case Digits => DigitsRange(ch);
  }

  lemma LowercaseRange(ch: char)
    ensures ch in AsciiLowercase <==> IsLower(ch)
  {
  }

  lemma UppercaseRange(ch: char)
    ensures ch in AsciiUppercase <==> IsUpper(ch)
  {
  }

  lemma DigitsRange(ch: char)
    ensures ch in AsciiDigits <==> IsDigit(ch)
  {
  }

  lemma PunctuationNotAlnum(ch: char)
    requires ch in Punctuation
    ensures !IsAlnum(ch)
  {
  }

  /** Each alphabet is part of the default lexicon. */
  lemma AlphabetInFull(c: CharClass, ch: char)
    requires ch in Alphabet(c)
    ensures ch in FullAlphabet
  {
    var ab := AsciiLowercase + AsciiUppercase;
    var abc := ab + Punctuation;
    assert FullAlphabet == abc + AsciiDigits;
    match c
    case Lowercase =>
      assert ch in ab;
      assert ch in abc;
    case Uppercase =>
      assert ch in ab;
      assert ch in abc;
    case Specials =>
      assert ch in abc;
    case Digits =>
  }

  /** Within the default lexicon, being a representative of a class (the pattern's
      notion) and belonging to its alphabet (the lexicon's notion) coincide. */
  lemma RepresentsIffInAlphabet(c: CharClass, ch: char)
    requires ch in FullAlphabet
    ensures Represents(c, ch) <==> ch in Alphabet(c)
  {
    LowercaseRange(ch);
    UppercaseRange(ch);
    DigitsRange(ch);
    assert ch in AsciiLowercase || ch in AsciiUppercase || ch in Punctuation || ch in AsciiDigits;
    if ch in Punctuation {
      PunctuationNotAlnum(ch);
    }
  }

  /** No alphabet contains a line feed, so the pattern's `.` and `$` never meet one
      in a candidate drawn from a lexicon. */
  lemma NoNewlineInFull()
    ensures '\n' !in FullAlphabet
  {
    LowercaseRange('\n');
    UppercaseRange('\n');
    DigitsRange('\n');
    assert '\n' !in Punctuation;
    var ab := AsciiLowercase + AsciiUppercase;
    var abc := ab + Punctuation;
    assert '\n' !in ab;
    assert '\n' !in abc;
    assert FullAlphabet == abc + AsciiDigits;
  }
}

=== FILE: cli_arguments.dfy ===
/** `prepare_password_options` (cli/cli_arguments.py:31-57): from parsed command-line
    flags to the length and the class dictionary handed to the core. */
module CliArguments {
  import opened Results
  import opened CharClasses
  import opened Options
  import opened Lexicon
  import opened Verification
  import opened Generation

  /** The parsed flags: `--length`, `--all`, `--lowercase`, `--uppercase`,
      `--specials`, `--digits`. */
  datatype Arguments = Arguments(
    length: int, all: bool, lowercase: bool, uppercase: bool, specials: bool, digits: bool)

  /** The flag that selects class `c`. */
  function Flag(args: Arguments, c: CharClass): bool
  {
    match c
    case Lowercase => args.lowercase
    case Uppercase => args.uppercase
    case Specials => args.specials
    case Digits => args.digits
  }

  /** `--all`, or no class flag at all, selects every class. */
  predicate SelectsEverything(args: Arguments)
  {
    args.all || !(args.lowercase || args.uppercase || args.specials || args.digits)
  }

  /** `prepare_password_options(args)`: the length passes through unchecked; the
      dictionary always has the four known keys in the order lowercase, uppercase,
      specials, digits, and at least one of them is on. */
  function PreparePasswordOptions(args: Arguments): (r: (int, OptionMap))
    ensures r.0 == args.length
    ensures |r.1| == 4 && forall i :: 0 <= i < 4 ==> r.1[i].0 == Key(ClassOrder[i])
    ensures SelectsEverything(args) ==> forall c :: Enabled(r.1, c)
    ensures !SelectsEverything(args) ==> forall c :: Enabled(r.1, c) == Flag(args, c)
    ensures exists c :: Enabled(r.1, c)
  {
    var everything := SelectsEverything(args);
    var m: OptionMap := [
      ("lowercase", everything || args.lowercase),
      ("uppercase", everything || args.uppercase),
      ("specials", everything || args.specials),
      ("digits", everything || args.digits)];
    assert forall c :: Enabled(m, c) == (everything || Flag(args, c)) by {
      forall c
        ensures Enabled(m, c) == (everything || Flag(args, c))
      {
        ClassOfKeyRoundTrip(c);
        var i := match c case Lowercase => 0 case Uppercase => 1 case Specials => 2 case Digits => 3;
        assert m[i].0 == Key(c);
        if Enabled(m, c) {
          var j :| 0 <= j < |m| && m[j] == (Key(c), true);
          assert m[j].0 == m[i].0;
        }
      }
    }
    assert Enabled(m, Lowercase) || Enabled(m, Uppercase) || Enabled(m, Specials) || Enabled(m, Digits);
    (args.length, m)
  }

  /** The lexicon built from the prepared dictionary is never empty, and it is the
      default 94-character lexicon whenever every class is selected. */
  lemma PreparedLexiconIsNonEmpty(args: Arguments)
    ensures |BuildLexicon(Some(PreparePasswordOptions(args).1))| > 0
    ensures SelectsEverything(args) ==> BuildLexicon(Some(PreparePasswordOptions(args).1)) == FullAlphabet
  {
    var m := PreparePasswordOptions(args).1;
    var c :| Enabled(m, c);
    assert Alphabet(c)[0] in Alphabet(c);
    if SelectsEverything(args) {
      assert Enabled(m, Lowercase) && Enabled(m, Uppercase) && Enabled(m, Specials) && Enabled(m, Digits);
    }
  }

  /** Along the command-line path the dictionary is never empty, so the defaulting in
      `generate_password` does not apply, and for any length from 8 on some candidate
      over the prepared lexicon is accepted. */
  lemma PreparedOptionsAdmitAPassword(args: Arguments)
    requires args.length >= MinLength
    ensures Effective(PreparePasswordOptions(args).1) == PreparePasswordOptions(args).1
    ensures var m := PreparePasswordOptions(args).1;
            var lexicon := BuildLexicon(Some(m));
            exists s :: |s| == args.length && (forall i :: 0 <= i < |s| ==> s[i] in lexicon)
                        && Accepted(args.length, m, s)
  {
    var m := PreparePasswordOptions(args).1;
    var lexicon := BuildLexicon(Some(m));
    PreparedLexiconIsNonEmpty(args);
    LexiconHasNoNewline(Some(m));
    forall c | Enabled(Effective(m), c)
      ensures HasRepresentative(lexicon, c)
    {
      var ch := Alphabet(c)[0];
      AlphabetRepresents(c, ch);
      EnabledAlphabetInLexicon(m, c, ch);
      var i :| 0 <= i < |lexicon| && lexicon[i] == ch;
    }
    AcceptableCandidateExists(args.length, m, lexicon);
  }
}

=== FILE: decimal.dfy ===
/** Python's decimal rendering of an `int` (`f"{n}"`), used when the verification
    pattern writes its length bound, together with the reading it is undone by. */
module Decimal {
  import opened Results

  predicate IsDigitChar(ch: char) { '0' <= ch <= '9' }

  predicate AllDigits(s: string)
  {
    forall i :: 0 <= i < |s| ==> IsDigitChar(s[i])
  }

  /** Digits as `str` writes them: at least one, and no `0` in front of another digit. */
  predicate Canonical(s: string)
  {
    |s| > 0 && AllDigits(s) && (|s| > 1 ==> s[0] != '0')
  }

  function DigitChar(d: nat): (ch: char)
    requires d < 10
    ensures IsDigitChar(ch)
  {
    ('0' as int + d) as char
  }

  function DigitValue(ch: char): (d: nat)
    requires IsDigitChar(ch)
    ensures d < 10 && DigitChar(d) == ch
  {
    ch as int - '0' as int
  }

  /** The decimal digits of `n`, most significant first, without leading zeros. */
  function NatToString(n: nat): (s: string)
    ensures Canonical(s)
    ensures s == "0" <==> n == 0
    decreases n
  {
    if n < 10 then [DigitChar(n)] else NatToString(n / 10) + [DigitChar(n % 10)]
  }

  /** `str(n)`: a minus sign before the digits of `|n|` when `n` is negative. */
  function IntToString(n: int): (s: string)
    ensures n >= 0 ==> Canonical(s)
    ensures n < 0 ==> |s| > 1 && s[0] == '-' && Canonical(s[1..]) && s[1..] != "0"
  {
    if n < 0 then "-" + NatToString(-n) else NatToString(n)
  }

  /** The number a string of decimal digits spells. */
  function DigitsValue(s: string): nat
    requires AllDigits(s)
  {
    if |s| == 0 then 0 else DigitsValue(s[..|s| - 1]) * 10 + DigitValue(s[|s| - 1])
  }

  /** Reads an integer written the way `str` writes one: canonical digits, with a
      minus sign only before a non-zero number; `None` for anything else. */
  function ParseInt(s: string): Option<int>
  {
    if |s| > 0 && s[0] == '-' then
      if Canonical(s[1..]) && s[1..] != "0" then Some(-(DigitsValue(s[1..]) as int)) else None
    else if Canonical(s) then Some(DigitsValue(s))
    else None
  }

  /** Reading the digits of `n` gives back `n`. */
  lemma {:induction false} NatToStringRoundTrip(n: nat)
    ensures DigitsValue(NatToString(n)) == n
    decreases n
  {
    if n >= 10 {
      var s := NatToString(n);
      NatToStringRoundTrip(n / 10);
      assert s[..|s| - 1] == NatToString(n / 10);
    }
  }

  /** Reading `str(n)` gives back `n`, for every integer. */
  lemma IntToStringRoundTrip(n: int)
    ensures ParseInt(IntToString(n)) == Some(n)
  {
    var s := IntToString(n);
    if n < 0 {
      var digits := NatToString(-n);
      NatToStringRoundTrip(-n);
      assert s == "-" + digits;
      assert s[1..] == digits;
      assert ParseInt(s) == Some(-(DigitsValue(digits) as int));
    } else {
      NatToStringRoundTrip(n);
      assert IsDigitChar(s[0]);
      assert ParseInt(s) == Some(DigitsValue(s) as int);
    }
  }

  /** Digits that do not start with `0` spell a positive number. */
  lemma {:induction false} LeadingDigitPositive(s: string)
    requires |s| > 0 && AllDigits(s) && s[0] != '0'
    ensures DigitsValue(s) > 0
    decreases |s|
  {
    if |s| > 1 {
      LeadingDigitPositive(s[..|s| - 1]);
    }
  }

  /** Writing the number that canonical digits spell gives back those digits. */
  lemma {:induction false} CanonicalDigitsRoundTrip(s: string)
    requires Canonical(s)
    ensures NatToString(DigitsValue(s)) == s
    decreases |s|
  {
    var v := DigitsValue(s);
    var last := DigitValue(s[|s| - 1]);
    if |s| == 1 {
      assert v == last;
    } else {
      var init := s[..|s| - 1];
      assert init[0] == s[0];
      LeadingDigitPositive(init);
      CanonicalDigitsRoundTrip(init);
      assert v == DigitsValue(init) * 10 + last;
      assert v / 10 == DigitsValue(init) && v % 10 == last;
      assert s == init + [s[|s| - 1]];
    }
  }

  /** A text reads as `n` only if it is exactly `str(n)`. */
  lemma ParseIntOnlyReadsCanonical(s: string, n: int)
    requires ParseInt(s) == Some(n)
    ensures s == IntToString(n)
  {
    if |s| > 0 && s[0] == '-' {
      var t := s[1..];
      if |t| > 1 {
        LeadingDigitPositive(t);
      }
      CanonicalDigitsRoundTrip(t);
      assert s == "-" + t;
    } else {
      CanonicalDigitsRoundTrip(s);
    }
  }

  function Pow10(k: nat): (r: nat)
    ensures r >= 1
  {
    if k == 0 then 1 else 10 * Pow10(k - 1)
  }

  /** A number below `10^k` is written with at most `k` digits. */
  lemma {:induction false} DigitCountBound(n: nat, k: nat)
    requires k >= 1 && n < Pow10(k)
    ensures |NatToString(n)| <= k
    decreases k
  {
    if n >= 10 {
      assert k >= 2;
      DigitCountBound(n / 10, k - 1);
    }
  }
}

=== FILE: generation.dfy ===
/** `generate_password` (core/password_generation.py:62-103): rejection sampling over
    a lexicon, checked against the verification pattern. The process-wide random
    generator is an explicit oracle, and the endless `while True` loop is observed for
    a given number of attempts. */
module Generation {
  import opened Results
  import opened CharClasses
  import opened Options
  import opened Lexicon
  import opened Decimal
  import opened Verification

  /** The ways a run of `generate_password` can end other than with a password. */
  datatype GenerationError =
    | InvalidPasswordLength  // `InvalidPasswordLengthError`: the length is below 8
    | BoundTooManyDigits     // `ValueError` from the f-string: `str(length - 1)` is over the digit limit
    | RepetitionTooLarge     // `OverflowError` from `re.compile`: the bound `length - 1` is too large
    | EmptyLexicon           // `IndexError` from `random.choice("")` on the first draw
    | NotFinished            // every observed candidate was rejected; the loop goes on

  /** The hard floor on the password length. */
  const MinLength: int := 8

  /** CPython's `MAXREPEAT` (2^32 - 1): compiling a `{0,n}` repetition with
      `n >= MaxRepeat` raises `OverflowError`, so the pattern of a length `L` compiles
      only when `L - 1 < MaxRepeat`. */
  const MaxRepeat: int := 0xFFFF_FFFF

  /** CPython's default limit on the digits `str` writes for an `int` (4300); the
      f-string that writes the bound `length - 1` raises `ValueError` above it, before
      the pattern is compiled. */
  const MaxStrDigits: nat := 4300

  /** The random source: the `t`-th call of `random.choice` over the whole run is
      answered by `oracle(t)`, reduced to an index into the lexicon. */
  type Oracle = nat -> nat

  /** The character the `t`-th draw picks. */
  function Draw(oracle: Oracle, lexicon: string, t: nat): (ch: char)
    requires |lexicon| > 0
    ensures ch in lexicon
  {
    lexicon[oracle(t) % |lexicon|]
  }

  /** Attempt `k`: a fresh string of `length` draws, numbered on from the draws of
      the `k` attempts before it. */
  function Candidate(oracle: Oracle, lexicon: string, length: nat, k: nat): (s: string)
    requires |lexicon| > 0
    ensures |s| == length
    ensures forall i :: 0 <= i < |s| ==> s[i] in lexicon
  {
    var s := seq(length, i requires 0 <= i < length => Draw(oracle, lexicon, k * length + i));
    assert forall i :: 0 <= i < |s| ==> s[i] == Draw(oracle, lexicon, k * length + i);
    s
  }

  /** The verdict of the compiled pattern on a candidate (`match_res is None`): accepted
      iff NOT matched, with the pattern built after `{}` has been defaulted. On
      line-feed-free strings this is a length test plus class coverage. */
  predicate Accepted(length: int, options: OptionMap, s: string): (b: bool)
    requires length >= 1
    ensures '\n' !in s && |s| < length ==> !b
    ensures '\n' !in s && |s| >= length ==> (b <==> Covers(Effective(options), s))
  {
    if '\n' !in s && |s| >= length then
      MatchesIffClassMissing(length, Effective(options), s);
      !Matches(BuildPattern(length, Effective(options)), s)
    else
      !Matches(BuildPattern(length, Effective(options)), s)
  }

  /** Attempt `k` builds its candidate by appending `length` uniform picks from the
      lexicon to an empty string, one pick per iteration. */
  method SampleCandidate(oracle: Oracle, lexicon: string, length: nat, k: nat) returns (password: string)
    requires |lexicon| > 0
    ensures password == Candidate(oracle, lexicon, length, k)
  {
    password := "";
    var i := 0;
    while i < length
      invariant 0 <= i <= length
      invariant |password| == i
      invariant forall t :: 0 <= t < i ==> password[t] == Draw(oracle, lexicon, k * length + t)
    {
      password := password + [Draw(oracle, lexicon, k * length + i)];
      i := i + 1;
    }
  }

  /** The first `k` attempts were all rejected. */
  predicate RejectedUpTo(length: nat, options: OptionMap, lexicon: string, oracle: Oracle, k: nat)
    requires length >= 1 && |lexicon| > 0
  {
    forall j :: 0 <= j < k ==> !Accepted(length, options, Candidate(oracle, lexicon, length, j))
  }

  /** One more rejected attempt extends the run of rejections. */
  lemma RejectedUpToStep(length: nat, options: OptionMap, lexicon: string, oracle: Oracle, k: nat)
    requires length >= 1 && |lexicon| > 0
    requires RejectedUpTo(length, options, lexicon, oracle, k)
    requires !Accepted(length, options, Candidate(oracle, lexicon, length, k))
    ensures RejectedUpTo(length, options, lexicon, oracle, k + 1)
  {
  }

  /** An accepted candidate drawn from a line-feed-free lexicon holds a representative
      of every class the defaulted dictionary enables. */
  lemma AcceptedCandidateCovers(length: nat, options: OptionMap, lexicon: string, s: string)
    requires length >= 1 && |s| == length && '\n' !in lexicon
    requires forall i :: 0 <= i < |s| ==> s[i] in lexicon
    requires Accepted(length, options, s)
    ensures Covers(Effective(options), s)
  {
    assert '\n' !in s;
    NotMatchedIffCovers(length, Effective(options), s);
  }

  /** An accepted candidate drawn from the lexicon `build_lexicon` makes for the same
      dictionary holds a character of every enabled class's alphabet. */
  lemma AcceptedCandidateHasEnabledAlphabets(length: nat, options: OptionMap, s: string)
    requires length >= 1 && |s| == length
    requires forall i :: 0 <= i < |s| ==> s[i] in BuildLexicon(Some(options))
    requires Accepted(length, options, s)
    ensures forall c :: Enabled(Effective(options), c) ==> exists i :: 0 <= i < |s| && s[i] in Alphabet(c)
  {
    var lexicon := BuildLexicon(Some(options));
    LexiconHasNoNewline(Some(options));
    AcceptedCandidateCovers(length, options, lexicon, s);
    forall c | Enabled(Effective(options), c)
      ensures exists i :: 0 <= i < |s| && s[i] in Alphabet(c)
    {
      var i :| 0 <= i < |s| && Represents(c, s[i]);
      RepresentsIffInAlphabet(c, s[i]);
    }
  }

  /** The `while True` loop of `generate_password`, observed for `attempts` candidates
      and checked with the compiled pattern: when `found`, attempt `k` is the first
      accepted candidate; otherwise all observed candidates were rejected. */
  method SampleUntilAccepted(length: nat, options: OptionMap, lexicon: string, oracle: Oracle, attempts: nat)
    returns (found: bool, k: nat, password: string)
    requires length >= MinLength && |lexicon| > 0
    ensures found ==> k < attempts && password == Candidate(oracle, lexicon, length, k)
    ensures found ==> Accepted(length, options, password) && RejectedUpTo(length, options, lexicon, oracle, k)
    ensures !found ==> RejectedUpTo(length, options, lexicon, oracle, attempts)
  {
    var pattern := Parse(BuildVerificationRegex(length, Effective(options))).value;
    assert pattern == BuildPattern(length, Effective(options));
    k := 0;
    while k < attempts
      invariant k <= attempts
      invariant RejectedUpTo(length, options, lexicon, oracle, k)
    {
      password := SampleCandidate(oracle, lexicon, length, k);
      if !Matches(pattern, password) {
        return true, k, password;
      }
      RejectedUpToStep(length, options, lexicon, oracle, k);
      k := k + 1;
    }
    return false, k, "";
  }

  /** `generate_password(length, char_options, lexicon)`, observed for `attempts`
      candidates. The length check and the compilation of the pattern come before any
      draw; every rejected candidate is
      thrown away whole, and the password returned is the first accepted candidate. */
  method GeneratePassword(length: int, options: OptionMap, lexicon: string, oracle: Oracle, attempts: nat)
    returns (r: Result<string, GenerationError>)
    ensures r == Failure(InvalidPasswordLength) <==> length < MinLength
    ensures r == Failure(BoundTooManyDigits) <==>
              length >= MinLength && |IntToString(length - 1)| > MaxStrDigits
    ensures r == Failure(RepetitionTooLarge) <==>
              length >= MinLength && |IntToString(length - 1)| <= MaxStrDigits && length - 1 >= MaxRepeat
    ensures r == Failure(EmptyLexicon) <==>
              MinLength <= length && length - 1 < MaxRepeat && |lexicon| == 0 && attempts > 0
    ensures r.Success? <==>
              MinLength <= length && length - 1 < MaxRepeat && |lexicon| > 0
              && !RejectedUpTo(length, options, lexicon, oracle, attempts)
    ensures r.Success? ==> |r.value| == length && forall i :: 0 <= i < |r.value| ==> r.value[i] in lexicon
    ensures r.Success? ==> length >= MinLength && Accepted(length, options, r.value)
    ensures r.Success? && '\n' !in lexicon ==> Covers(Effective(options), r.value)
    ensures r.Success? ==>
              MinLength <= length < MaxRepeat + 1 && |lexicon| > 0 &&
              exists k :: 0 <= k < attempts && r.value == Candidate(oracle, lexicon, length, k)
                          && RejectedUpTo(length, options, lexicon, oracle, k)
    ensures r == Failure(NotFinished) <==>
              MinLength <= length && length - 1 < MaxRepeat && (|lexicon| == 0 ==> attempts == 0) &&
              (|lexicon| > 0 ==> RejectedUpTo(length, options, lexicon, oracle, attempts))
  {
    if length < MinLength {
      return Failure(InvalidPasswordLength);
    }
    if length - 1 < MaxRepeat {
      // a bound below 2^32 has at most ten digits
      DigitCountBound(length - 1, 10);
    }
    if |IntToString(length - 1)| > MaxStrDigits {
      // `str(length - 1)` inside the f-string that starts the pattern
      return Failure(BoundTooManyDigits);
    }
    if length - 1 >= MaxRepeat {
      // the pattern is compiled after the defaulting step and before the first draw
      return Failure(RepetitionTooLarge);
    }
    if |lexicon| == 0 {
      // `random.choice("")` raises on the first draw, if the loop is entered at all
      return if attempts > 0 then Failure(EmptyLexicon) else Failure(NotFinished);
    }
    var found, k, password := SampleUntilAccepted(length, options, lexicon, oracle, attempts);
    if !found {
      return Failure(NotFinished);
    }
    assert !RejectedUpTo(length, options, lexicon, oracle, attempts) by {
      assert !Accepted(length, options, Candidate(oracle, lexicon, length, k)) ==> false;
    }
    if '\n' !in lexicon {
      AcceptedCandidateCovers(length, options, lexicon, password);
    }
    return Success(password);
  }

  /** `{}` is replaced by all four classes before the pattern is built: its pattern
      asks for every class, in the order lowercase, uppercase, specials, digits. */
  lemma EmptyOptionsRequireEveryClass(length: int)
    ensures BuildPattern(length, Effective([])) == BuildPattern(length, AllEnabled)
    ensures BuildPattern(length, Effective([])).missing == [Lowercase, Uppercase, Specials, Digits]
  {
    var m := AllEnabled;
    assert m[1..][1..][1..][1..] == [];
    assert MissingAlternatives(m[1..][1..][1..]) == [Digits];
    assert MissingAlternatives(m[1..][1..]) == [Specials, Digits];
    assert MissingAlternatives(m[1..]) == [Uppercase, Specials, Digits];
  }

  /** A non-empty dictionary with every flag false is NOT defaulted: only the length
      alternative is left, so every candidate of the right length is accepted. */
  lemma AllFalseOptionsAcceptEveryCandidate(length: int, options: OptionMap, s: string)
    requires |options| > 0 && forall i :: 0 <= i < |options| ==> !options[i].1
    requires length >= 1 && |s| == length && '\n' !in s
    ensures Effective(options) == options
    ensures BuildPattern(length, Effective(options)).missing == []
    ensures Accepted(length, options, s)
  {
    AllFalseOnlyChecksLength(length, options, s);
  }

  /** The lexicon holds a character representing class `c`. */
  predicate HasRepresentative(lexicon: string, c: CharClass)
  {
    exists i :: 0 <= i < |lexicon| && Represents(c, lexicon[i])
  }

  /** One lexicon character representing each class of `cs`. */
  ghost function Representatives(cs: seq<CharClass>, lexicon: string): (w: string)
    requires forall c :: c in cs ==> HasRepresentative(lexicon, c)
    ensures |w| == |cs|
    ensures forall i :: 0 <= i < |w| ==> w[i] in lexicon && Represents(cs[i], w[i])
  {
    if |cs| == 0 then []
    else
      assert cs[0] in cs;
      assert HasRepresentative(lexicon, cs[0]);
      var i :| 0 <= i < |lexicon| && Represents(cs[0], lexicon[i]);
      [lexicon[i]] + Representatives(cs[1..], lexicon)
  }

  /** An acceptable candidate exists as soon as the lexicon holds a representative of
      every enabled class and the length leaves room for one of each. */
  lemma AcceptableCandidateExists(length: int, options: OptionMap, lexicon: string)
    requires '\n' !in lexicon
    requires forall c :: Enabled(Effective(options), c) ==> HasRepresentative(lexicon, c)
    requires |lexicon| > 0 && length >= 1 && length >= |MissingAlternatives(Effective(options))|
    ensures exists s :: |s| == length && (forall i :: 0 <= i < |s| ==> s[i] in lexicon) && Accepted(length, options, s)
  {
    var effective := Effective(options);
    var cs := MissingAlternatives(effective);
    var w := Representatives(cs, lexicon);
    var s := w + seq(length - |cs|, _ => lexicon[0]);
    assert forall i :: 0 <= i < |s| ==> s[i] in lexicon by {
      forall i | 0 <= i < |s|
        ensures s[i] in lexicon
      {
        if i < |w| {
          assert s[i] == w[i];
        }
      }
    }
    assert '\n' !in s;
    forall c | Enabled(effective, c)
      ensures exists i :: 0 <= i < |s| && Represents(c, s[i])
    {
      var j :| 0 <= j < |cs| && cs[j] == c;
      assert s[j] == w[j];
    }
    NotMatchedIffCovers(length, effective, s);
  }
}

=== FILE: lexicon.dfy ===
/** `build_lexicon` (core/password_generation.py:22-34): the alphabet passwords are
    sampled from. */
module Lexicon {
  import opened Results
  import opened CharClasses
  import opened Options

  /** The part of the lexicon class `c` contributes under dictionary `m`. */
  function Contribution(m: OptionMap, c: CharClass): string
  {
    if Enabled(m, c) then Alphabet(c) else ""
  }

  /** The four contributions joined in the fixed class order. */
  function JoinEnabled(m: OptionMap): string
  {
    Contribution(m, Lowercase) + Contribution(m, Uppercase)
    + Contribution(m, Specials) + Contribution(m, Digits)
  }

  /** The contributions of the classes `cs`, joined in the order `cs` lists them. */
  function JoinIn(cs: seq<CharClass>, m: OptionMap): string
  {
    if |cs| == 0 then "" else Contribution(m, cs[0]) + JoinIn(cs[1..], m)
  }

  /** One step of the join: the first class's contribution, then the rest. */
  lemma JoinInCons(c: CharClass, cs: seq<CharClass>, m: OptionMap)
    ensures JoinIn([c] + cs, m) == Contribution(m, c) + JoinIn(cs, m)
  {
    assert ([c] + cs)[1..] == cs;
  }

  /** Joining along a four-class list is joining its four contributions. */
  lemma JoinInFour(c0: CharClass, c1: CharClass, c2: CharClass, c3: CharClass, m: OptionMap)
    ensures JoinIn([c0, c1, c2, c3], m)
            == Contribution(m, c0) + Contribution(m, c1) + Contribution(m, c2) + Contribution(m, c3)
  {
    JoinInCons(c3, [], m);
    assert [c3] + [] == [c3];
    JoinInCons(c2, [c3], m);
    assert [c2] + [c3] == [c2, c3];
    JoinInCons(c1, [c2, c3], m);
    assert [c1] + [c2, c3] == [c1, c2, c3];
    JoinInCons(c0, [c1, c2, c3], m);
    assert [c0] + [c1, c2, c3] == [c0, c1, c2, c3];
    ConcatAssoc(Contribution(m, c0), Contribution(m, c1), Contribution(m, c2), Contribution(m, c3));
  }

  /** Regrouping four concatenated strings. */
  lemma ConcatAssoc(a: string, b: string, c: string, d: string)
    ensures a + (b + (c + (d + ""))) == a + b + c + d
  {
  }

  /** Joining the four contributions is joining along `ClassOrder`. */
  lemma JoinEnabledFollowsClassOrder(m: OptionMap)
    ensures JoinEnabled(m) == JoinIn(ClassOrder, m)
  {
    JoinInFour(Lowercase, Uppercase, Specials, Digits, m);
  }

  /** A character is in the joined alphabets iff some enabled class's alphabet has it. */
  lemma JoinEnabledMembership(m: OptionMap, ch: char)
    ensures ch in JoinEnabled(m) <==> exists c :: Enabled(m, c) && ch in Alphabet(c)
    ensures ch in JoinEnabled(m) ==> ch in FullAlphabet
  {
    var a := Contribution(m, Lowercase);
    var b := Contribution(m, Uppercase);
    var c := Contribution(m, Specials);
    var d := Contribution(m, Digits);
    assert JoinEnabled(m) == a + b + c + d;
    assert ch in JoinEnabled(m) <==> ch in a || ch in b || ch in c || ch in d;
    if ch in a { AlphabetInFull(Lowercase, ch); }
    if ch in b { AlphabetInFull(Uppercase, ch); }
    if ch in c { AlphabetInFull(Specials, ch); }
    if ch in d { AlphabetInFull(Digits, ch); }
  }

  /** `build_lexicon(character_options)`. `None` and `{}` select the default lexicon;
      otherwise the alphabets of the truthy known keys are joined in the fixed order
      lowercase, uppercase, specials, digits, whatever the dictionary's order. */
  function BuildLexicon(options: Option<OptionMap>): (r: string)
    ensures (options.None? || |options.value| == 0) ==> r == FullAlphabet && |r| == 94
    ensures options.Some? && |options.value| > 0 ==> r == JoinIn(ClassOrder, options.value)
    ensures options.Some? && |options.value| > 0 ==>
              forall ch :: ch in r <==> exists c :: Enabled(options.value, c) && ch in Alphabet(c)
    ensures options.Some? && |options.value| > 0 ==>
              |r| == |Contribution(options.value, Lowercase)| + |Contribution(options.value, Uppercase)|
                     + |Contribution(options.value, Specials)| + |Contribution(options.value, Digits)|
    ensures forall ch :: ch in r ==> ch in FullAlphabet
  {
    match options
    case None => FullAlphabet
    case Some(m) =>
      if |m| == 0 then FullAlphabet
      else
        assert forall ch :: (ch in JoinEnabled(m) <==> exists c :: Enabled(m, c) && ch in Alphabet(c))
                            && (ch in JoinEnabled(m) ==> ch in FullAlphabet) by {
          forall ch
            ensures (ch in JoinEnabled(m) <==> exists c :: Enabled(m, c) && ch in Alphabet(c))
                    && (ch in JoinEnabled(m) ==> ch in FullAlphabet)
          {
            JoinEnabledMembership(m, ch);
          }
        }
        JoinEnabledFollowsClassOrder(m);
        JoinEnabled(m)
  }

  /** A non-empty dictionary whose flags are all false yields the empty lexicon; the
      default applies only to `None` and `{}`. */
  lemma AllFalseGivesEmptyLexicon(m: OptionMap)
    requires |m| > 0
    requires forall i :: 0 <= i < |m| ==> !m[i].1
    ensures BuildLexicon(Some(m)) == ""
  {
  }

  /** The lexicon depends on the dictionary only through which known classes it
      switches on: insertion order and unknown keys make no difference. */
  lemma LexiconDependsOnlyOnEnabled(m1: OptionMap, m2: OptionMap)
    requires |m1| > 0 && |m2| > 0
    requires forall c :: Enabled(m1, c) <==> Enabled(m2, c)
    ensures BuildLexicon(Some(m1)) == BuildLexicon(Some(m2))
  {
    assert JoinEnabled(m1) == JoinEnabled(m2);
    assert Contribution(m1, Lowercase) == Contribution(m2, Lowercase);
    assert Contribution(m1, Uppercase) == Contribution(m2, Uppercase);
    assert Contribution(m1, Specials) == Contribution(m2, Specials);
    assert Contribution(m1, Digits) == Contribution(m2, Digits);
  }

  /** `build_lexicon({"lowercase": True})` is exactly the 26 lowercase letters. */
  lemma LowercaseOnlyLexicon()
    ensures BuildLexicon(Some([("lowercase", true)])) == AsciiLowercase
  {
    var m: OptionMap := [("lowercase", true)];
    assert Enabled(m, Lowercase) by { assert m[0] == (Key(Lowercase), true); }
    assert !Enabled(m, Uppercase) && !Enabled(m, Specials) && !Enabled(m, Digits);
  }

  /** A lexicon never contains a line feed. */
  lemma LexiconHasNoNewline(options: Option<OptionMap>)
    ensures '\n' !in BuildLexicon(options)
  {
    NoNewlineInFull();
  }

  /** Whenever a class is on, its whole alphabet is in the lexicon. */
  lemma EnabledAlphabetInLexicon(m: OptionMap, c: CharClass, ch: char)
    requires Enabled(m, c)
    requires ch in Alphabet(c)
    ensures ch in BuildLexicon(Some(m))
  {
  }
}

=== FILE: options.dfy ===
/** The class-options dictionary (`Dict[str, bool]`) passed between the CLI layer,
    `build_lexicon`, `build_verification_regex` and `generate_password`. A Python
    dict is an insertion-ordered list of entries with distinct keys; keys outside the
    four known ones may occur and are ignored by every consumer. */
module Options {
  import opened CharClasses

  /** One dictionary entry: a key and the truth value of its flag. */
  type Entry = (string, bool)

  predicate DistinctKeys(s: seq<Entry>)
  {
    forall i, j :: 0 <= i < j < |s| ==> s[i].0 != s[j].0
  }

  /** A dictionary in insertion order. */
  type OptionMap = s: seq<Entry> | DistinctKeys(s) witness []

  /** `m.get(Key(c))` is truthy: class `c` is switched on. */
  predicate Enabled(m: seq<Entry>, c: CharClass)
  {
    exists i :: 0 <= i < |m| && m[i] == (Key(c), true)
  }

  /** The dictionary `generate_password` substitutes for an empty one. */
  const AllEnabled: OptionMap :=
    [("lowercase", true), ("uppercase", true), ("specials", true), ("digits", true)]

  /** The defaulting step of generation: only an EMPTY dictionary is replaced by the
      all-enabled one; a non-empty one, even with every flag false, is kept as it is. */
  function Effective(m: OptionMap): (r: OptionMap)
    ensures |m| == 0 ==> forall c :: Enabled(r, c)
    ensures |m| > 0 ==> r == m
  {
    if |m| == 0 then
      assert Enabled(AllEnabled, Lowercase) by { assert AllEnabled[0] == (Key(Lowercase), true); }
      assert Enabled(AllEnabled, Uppercase) by { assert AllEnabled[1] == (Key(Uppercase), true); }
      assert Enabled(AllEnabled, Specials) by { assert AllEnabled[2] == (Key(Specials), true); }
      assert Enabled(AllEnabled, Digits) by { assert AllEnabled[3] == (Key(Digits), true); }
      AllEnabled
    else m
  }

  /** Peeling one entry off a dictionary: `c` is on in `m` iff the head switches it
      on or the tail does. */
  lemma EnabledCons(m: seq<Entry>, c: CharClass)
    requires |m| > 0
    ensures Enabled(m, c) <==> m[0] == (Key(c), true) || Enabled(m[1..], c)
  {
    if Enabled(m[1..], c) {
      var i :| 0 <= i < |m[1..]| && m[1..][i] == (Key(c), true);
      assert m[i + 1] == (Key(c), true);
    }
    if Enabled(m, c) && m[0] != (Key(c), true) {
      var i :| 0 <= i < |m| && m[i] == (Key(c), true);
      assert m[1..][i - 1] == (Key(c), true);
    }
  }
}

=== FILE: results.dfy ===
/** Failure-carrying wrappers shared by the password model. The source signals
    failure with Python exceptions; here each exception becomes a `Failure` value. */
module Results {

  /** A value that may be absent (Python's `None`, or a failed parse). */
  datatype Option<+T> = None | Some(value: T)

  /** Either a computed value or the error the source would raise. */
  datatype Result<+T, +E> = Success(value: T) | Failure(error: E)
}

=== FILE: strength.dfy ===
/** `compute_password_strength` (core/password_generation.py:106-125). The entropy
    `len(password) * log2(len(lexicon))` is never computed as a float: with `n` lexicon
    characters and a password of `L` characters, "entropy < t bits" is exactly
    `n^L < 2^t`, so the tiers are decided over integers. */
module Strength {
  import opened Results

  /** The five strength tiers, weakest first. */
  datatype Tier = VeryWeak | Weak | Reasonable | Strong | VeryStrong

  /** The label `compute_password_strength` returns for a tier. */
  function Label(t: Tier): string
  {
    match t
    case VeryWeak => "Very weak"
    case Weak => "Weak"
    case Reasonable => "Reasonable"
    case Strong => "Strong"
    case VeryStrong => "Very strong"
  }

  /** The labels the display layer has a colour for (the keys of `COLORS` in
      cli/cli_ui.py); any other label raises `InvalidStrengthError` there. */
  const DisplayedLabels: set<string> := {"Very weak", "Weak", "Reasonable", "Strong", "Very strong"}

  /** Reads a label back into its tier. */
  function TierOfLabel(s: string): Option<Tier>
  {
    if s == "Very weak" then Some(VeryWeak)
    else if s == "Weak" then Some(Weak)
    else if s == "Reasonable" then Some(Reasonable)
    else if s == "Strong" then Some(Strong)
    else if s == "Very strong" then Some(VeryStrong)
    else None
  }

  /** Every label is read back as its own tier, and every label is one the display
      layer knows, so the `InvalidStrengthError` path is unreachable from here. */
  lemma LabelRoundTrip(t: Tier)
    ensures TierOfLabel(Label(t)) == Some(t)
    ensures Label(t) in DisplayedLabels
  {
  }

  /** Exactly the displayed labels are labels of tiers. */
  lemma DisplayedLabelsAreTierLabels(s: string)
    ensures TierOfLabel(s).Some? <==> s in DisplayedLabels
    ensures s in DisplayedLabels ==> Label(TierOfLabel(s).value) == s
  {
  }

  /** Position of a tier, weakest = 0. */
  function Rank(t: Tier): nat
  {
    match t
    case VeryWeak => 0
    case Weak => 1
    case Reasonable => 2
    case Strong => 3
    case VeryStrong => 4
  }

  function Pow(b: nat, e: nat): nat
  {
    if e == 0 then 1 else b * Pow(b, e - 1)
  }

  /** `length * log2(symbols) < bits`, decided exactly. */
  predicate EntropyBelow(symbols: nat, length: nat, bits: nat)
  {
    Pow(symbols, length) < Pow(2, bits)
  }

  /** How many of the thresholds 28, 35, 59 and 127 bits the entropy reaches. */
  function ThresholdsReached(symbols: nat, length: nat): nat
  {
    (if EntropyBelow(symbols, length, 28) then 0 else 1)
    + (if EntropyBelow(symbols, length, 35) then 0 else 1)
    + (if EntropyBelow(symbols, length, 59) then 0 else 1)
    + (if EntropyBelow(symbols, length, 127) then 0 else 1)
  }

  lemma {:induction false} PowPositive(b: nat, e: nat)
    requires b >= 1
    ensures Pow(b, e) >= 1
  {
    if e > 0 {
      PowPositive(b, e - 1);
    }
  }

  lemma {:induction false} PowMonotoneInExponent(b: nat, e1: nat, e2: nat)
    requires b >= 1 && e1 <= e2
    ensures Pow(b, e1) <= Pow(b, e2)
    decreases e2
  {
    if e1 < e2 {
      PowMonotoneInExponent(b, e1, e2 - 1);
      PowPositive(b, e2 - 1);
      assert Pow(b, e2) == b * Pow(b, e2 - 1);
    }
  }

  lemma {:induction false} PowStrictlyMonotoneInExponent(b: nat, e1: nat, e2: nat)
    requires b >= 2 && e1 < e2
    ensures Pow(b, e1) < Pow(b, e2)
    decreases e2
  {
    PowMonotoneInExponent(b, e1, e2 - 1);
    PowPositive(b, e2 - 1);
    assert Pow(b, e2) == b * Pow(b, e2 - 1);
  }

  lemma MulMonotone(a: nat, b: nat, c: nat, d: nat)
    requires a <= b && c <= d
    ensures a * c <= b * d
  {
    assert a * c <= b * c;
    assert b * c <= b * d;
  }

  lemma {:induction false} PowMonotoneInBase(b1: nat, b2: nat, e: nat)
    requires b1 <= b2
    ensures Pow(b1, e) <= Pow(b2, e)
  {
    if e > 0 {
      PowMonotoneInBase(b1, b2, e - 1);
      MulMonotone(b1, b2, Pow(b1, e - 1), Pow(b2, e - 1));
    }
  }

  lemma {:induction false} PowStrictlyMonotoneInBase(b1: nat, b2: nat, e: nat)
    requires b1 < b2 && e >= 1
    ensures Pow(b1, e) < Pow(b2, e)
  {
    PowMonotoneInBase(b1, b2, e - 1);
    PowPositive(b2, e - 1);
    assert b1 * Pow(b1, e - 1) <= b1 * Pow(b2, e - 1);
    assert b1 * Pow(b2, e - 1) < b2 * Pow(b2, e - 1);
  }

  /** Below a higher threshold whenever below a lower one. */
  lemma BelowIsUpwardClosed(symbols: nat, length: nat, bits1: nat, bits2: nat)
    requires bits1 <= bits2
    ensures EntropyBelow(symbols, length, bits1) ==> EntropyBelow(symbols, length, bits2)
  {
    PowMonotoneInExponent(2, bits1, bits2);
  }

  /** The tier of a password of `length` characters over `symbols` lexicon characters:
      the half-open bands [0, 28), [28, 35), [35, 59), [59, 127), [127, inf) of entropy.
      Its rank is the number of thresholds the entropy reaches. */
  function TierOf(symbols: nat, length: nat): (t: Tier)
    requires symbols >= 1
    ensures Rank(t) == ThresholdsReached(symbols, length)
  {
    BelowIsUpwardClosed(symbols, length, 28, 35);
    BelowIsUpwardClosed(symbols, length, 35, 59);
    BelowIsUpwardClosed(symbols, length, 59, 127);
    if EntropyBelow(symbols, length, 28) then VeryWeak
    else if EntropyBelow(symbols, length, 35) then Weak
    else if EntropyBelow(symbols, length, 59) then Reasonable
    else if EntropyBelow(symbols, length, 127) then Strong
    else VeryStrong
  }

  /** The scoring failure: `math.log2(0)` raises `ValueError`. */
  datatype StrengthError = MathDomainError

  /** A strength verdict. The entropy in bits is `log2(combinations)`, where
      `combinations` is the number of equally likely passwords of that length. */
  datatype StrengthResult = StrengthResult(tier: Tier, combinations: nat)

  /** `compute_password_strength(password, lexicon)`. */
  function ComputePasswordStrength(password: string, lexicon: string): (r: Result<StrengthResult, StrengthError>)
    ensures r.Failure? <==> |lexicon| == 0
    ensures r.Success? ==> r.value.combinations == Pow(|lexicon|, |password|) && r.value.combinations >= 1
    ensures r.Success? ==> Rank(r.value.tier) == ThresholdsReached(|lexicon|, |password|)
    ensures r.Success? ==> (r.value.tier == VeryWeak <==> EntropyBelow(|lexicon|, |password|, 28))
    ensures r.Success? ==> (r.value.tier == VeryStrong <==> !EntropyBelow(|lexicon|, |password|, 127))
    ensures r.Success? ==> Label(r.value.tier) in DisplayedLabels
  {
    if |lexicon| == 0 then Failure(MathDomainError)
    else
      PowPositive(|lexicon|, |password|);
      Success(StrengthResult(TierOf(|lexicon|, |password|), Pow(|lexicon|, |password|)))
  }

  /** A longer password over the same lexicon never scores lower. */
  lemma TierMonotoneInLength(symbols: nat, length1: nat, length2: nat)
    requires symbols >= 1 && length1 <= length2
    ensures Rank(TierOf(symbols, length1)) <= Rank(TierOf(symbols, length2))
  {
    PowMonotoneInExponent(symbols, length1, length2);
  }

  /** A larger lexicon never scores lower for the same length. */
  lemma TierMonotoneInLexiconSize(symbols1: nat, symbols2: nat, length: nat)
    requires 1 <= symbols1 <= symbols2
    ensures Rank(TierOf(symbols1, length)) <= Rank(TierOf(symbols2, length))
  {
    PowMonotoneInBase(symbols1, symbols2, length);
  }

  /** Entropy strictly grows with the length once the lexicon has two characters, and
      with the lexicon size once the password has one character. */
  lemma EntropyStrictlyIncreases(symbols: nat, length: nat)
    requires symbols >= 2
    ensures Pow(symbols, length) < Pow(symbols, length + 1)
    ensures length >= 1 ==> Pow(symbols, length) < Pow(symbols + 1, length)
  {
    PowStrictlyMonotoneInExponent(symbols, length, length + 1);
    if length >= 1 {
      PowStrictlyMonotoneInBase(symbols, symbols + 1, length);
    }
  }

  lemma {:induction false} PowAdd(b: nat, e1: nat, e2: nat)
    ensures Pow(b, e1 + e2) == Pow(b, e1) * Pow(b, e2)
    decreases e2
  {
    if e2 > 0 {
      PowAdd(b, e1, e2 - 1);
      assert Pow(b, e1 + e2) == b * Pow(b, e1 + e2 - 1);
    }
  }

  lemma {:induction false} PowOfPow(b: nat, e1: nat, e2: nat)
    ensures Pow(Pow(b, e1), e2) == Pow(b, e1 * e2)
    decreases e2
  {
    if e2 > 0 {
      PowOfPow(b, e1, e2 - 1);
      PowAdd(b, e1, e1 * (e2 - 1));
      assert e1 + e1 * (e2 - 1) == e1 * e2;
    }
  }

  /** A lexicon of `2^k` characters gives exactly `k` bits per character. */
  lemma PowerOfTwoLexicon(k: nat, length: nat, bits: nat)
    requires k >= 1
    ensures EntropyBelow(Pow(2, k), length, bits) <==> k * length < bits
  {
    PowOfPow(2, k, length);
    if k * length < bits {
      PowStrictlyMonotoneInExponent(2, k * length, bits);
    } else {
      PowMonotoneInExponent(2, bits, k * length);
    }
  }

  /** With a lexicon of `2^k` characters the entropy is the integer `k * length`, and
      the tier counts the thresholds it reaches, each one inclusive. */
  lemma TierOfPowerOfTwoLexicon(k: nat, length: nat)
    requires k >= 1
    ensures Pow(2, k) >= 1
    ensures Rank(TierOf(Pow(2, k), length)) ==
              (if k * length >= 28 then 1 else 0) + (if k * length >= 35 then 1 else 0)
              + (if k * length >= 59 then 1 else 0) + (if k * length >= 127 then 1 else 0)
  {
    PowPositive(2, k);
    PowerOfTwoLexicon(k, length, 28);
    PowerOfTwoLexicon(k, length, 35);
    PowerOfTwoLexicon(k, length, 59);
    PowerOfTwoLexicon(k, length, 127);
  }

  /** Entropy of exactly 28, 35, 59 and 127 bits falls in the upper band, and one
      bit less falls in the lower one. */
  lemma ThresholdsAreHalfOpen()
    ensures TierOf(2, 27) == VeryWeak && TierOf(4, 14) == Weak
    ensures TierOf(2, 34) == Weak && TierOf(32, 7) == Reasonable
    ensures TierOf(2, 58) == Reasonable && TierOf(2, 59) == Strong
    ensures TierOf(2, 126) == Strong && TierOf(2, 127) == VeryStrong
  {
    assert Pow(2, 1) == 2 && Pow(2, 2) == 4 && Pow(2, 5) == 32;
    TierOfPowerOfTwoLexicon(1, 27);
    TierOfPowerOfTwoLexicon(2, 14);
    TierOfPowerOfTwoLexicon(1, 34);
    TierOfPowerOfTwoLexicon(5, 7);
    TierOfPowerOfTwoLexicon(1, 58);
    TierOfPowerOfTwoLexicon(1, 59);
    TierOfPowerOfTwoLexicon(1, 126);
    TierOfPowerOfTwoLexicon(1, 127);
  }

  /** Eight lowercase letters carry about 37.6 bits: "Reasonable". */
  lemma LowercaseExampleScore()
    ensures TierOf(26, 8) == Reasonable
  {
    assert Pow(2, 1) == 2 && Pow(26, 1) == 26;
    PowAdd(2, 1, 1);
    PowAdd(2, 2, 2);
    PowAdd(2, 4, 4);
    PowAdd(2, 8, 8);
    PowAdd(2, 16, 16);
    PowAdd(2, 32, 3);
    PowAdd(2, 3, 32);
    PowAdd(2, 32, 27);
    PowAdd(2, 16, 11);
    PowAdd(2, 8, 3);
    PowAdd(2, 2, 1);
    PowAdd(26, 1, 1);
    PowAdd(26, 2, 2);
    PowAdd(26, 4, 4);
    assert Pow(26, 8) == 208827064576;
    assert Pow(2, 35) == 34359738368;
    assert Pow(2, 59) == 576460752303423488;
  }

  /** Twenty characters of the full 94-character lexicon carry about 131.1 bits:
      "Very strong", since 94^20 = 8836^10 >= 8192^10 = 2^130. */
  lemma FullLexiconExampleScore()
    ensures TierOf(94, 20) == VeryStrong
  {
    assert Pow(2, 1) == 2 && Pow(94, 2) == 8836;
    PowAdd(2, 1, 1);
    PowAdd(2, 2, 2);
    PowAdd(2, 4, 4);
    PowAdd(2, 8, 4);
    PowAdd(2, 12, 1);
    assert Pow(2, 13) == 8192;
    PowOfPow(94, 2, 10);
    PowOfPow(2, 13, 10);
    PowMonotoneInBase(8192, 8836, 10);
    PowStrictlyMonotoneInExponent(2, 127, 130);
    assert !EntropyBelow(94, 20, 127);
  }
}

=== FILE: verification.dfy ===
/** `build_verification_regex` (core/password_generation.py:37-59), modelled twice:
    as the pattern STRING it writes, and as the set of strings that pattern matches
    under `re.match`. `Parse` recovers the pattern's structure from the string, which
    ties the two readings together. */
module Verification {
  import opened Results
  import opened CharClasses
  import opened Options
  import opened Decimal

  /** The structure of `^(.{0,shortBound}|alt_1|...|alt_n)$`: a "too short" alternative
      and one "class c is missing" alternative per element of `missing`. */
  datatype Pattern = Pattern(shortBound: int, missing: seq<CharClass>)

  /** The alternative appended for an enabled class: a whole string free of that
      class's representatives. */
  function AltText(c: CharClass): string
  {
    match c
    case Lowercase => "|[^a-z]*"
    case Uppercase => "|[^A-Z]*"
    case Specials => "|[a-zA-Z0-9]*"
    case Digits => "|[^0-9]*"
  }

  function AltsText(cs: seq<CharClass>): string
  {
    if |cs| == 0 then "" else AltText(cs[0]) + AltsText(cs[1..])
  }

  const Head: string := "^(.{0,"
  const Tail: string := ")$"

  /** The pattern as text, exactly as the f-string and the `+=` steps build it. */
  function Serialize(p: Pattern): string
  {
    Head + IntToString(p.shortBound) + "}" + AltsText(p.missing) + Tail
  }

  /** The classes the pattern builder emits an alternative for while it walks the
      truthy entries of the dictionary: those with a known key, in insertion order.
      Falsy entries and unknown keys contribute nothing. */
  function MissingAlternatives(m: seq<Entry>): (r: seq<CharClass>)
    ensures forall c :: c in r <==> Enabled(m, c)
    ensures |r| <= |m|
  {
    if |m| == 0 then []
    else
      var rest := MissingAlternatives(m[1..]);
      var r := if m[0].1 && ClassOfKey(m[0].0).Some? then [ClassOfKey(m[0].0).value] + rest else rest;
      assert forall c :: c in r <==> Enabled(m, c) by {
        forall c
          ensures c in r <==> Enabled(m, c)
        {
          EnabledCons(m, c);
          ClassOfKeyRoundTrip(c);
        }
      }
      r
  }

  /** Position of the first entry with key `key` (`|m|` when there is none). */
  function KeyIndex(m: seq<Entry>, key: string): (k: nat)
    ensures k <= |m|
    ensures k < |m| ==> m[k].0 == key
    ensures forall i :: 0 <= i < k ==> m[i].0 != key
  {
    if |m| == 0 then 0 else if m[0].0 == key then 0 else 1 + KeyIndex(m[1..], key)
  }

  /** A class with an alternative from the tail of a dictionary does not have the head's
      key, so its key index is one past its index in the tail. */
  lemma KeyIndexShift(m: OptionMap, d: CharClass)
    requires |m| > 0
    requires d in MissingAlternatives(m[1..])
    ensures KeyIndex(m, Key(d)) == 1 + KeyIndex(m[1..], Key(d))
  {
    var tail := m[1..];
    assert Enabled(tail, d);
    var i :| 0 <= i < |tail| && tail[i] == (Key(d), true);
    assert m[i + 1].0 == Key(d);
    assert m[0].0 != m[i + 1].0;
    assert KeyIndex(m, Key(d)) == 1 + KeyIndex(tail, Key(d));
  }

  /** The alternatives follow the dictionary's insertion order, each class once. */
  lemma {:induction false} AlternativesInInsertionOrder(m: OptionMap)
    ensures var r := MissingAlternatives(m);
            forall i, j :: 0 <= i < j < |r| ==> KeyIndex(m, Key(r[i])) < KeyIndex(m, Key(r[j]))
  {
    if |m| > 0 {
      var tail: OptionMap := m[1..];
      AlternativesInInsertionOrder(tail);
      var rest := MissingAlternatives(tail);
      var r := MissingAlternatives(m);
      if m[0].1 && ClassOfKey(m[0].0).Some? {
        assert r == [ClassOfKey(m[0].0).value] + rest;
        forall i, j | 0 <= i < j < |r|
          ensures KeyIndex(m, Key(r[i])) < KeyIndex(m, Key(r[j]))
        {
          assert r[j] == rest[j - 1];
          KeyIndexShift(m, r[j]);
          if i > 0 {
            assert r[i] == rest[i - 1];
            KeyIndexShift(m, r[i]);
          }
        }
      } else {
        assert r == rest;
        forall i, j | 0 <= i < j < |r|
          ensures KeyIndex(m, Key(r[i])) < KeyIndex(m, Key(r[j]))
        {
          KeyIndexShift(m, r[i]);
          KeyIndexShift(m, r[j]);
        }
      }
    }
  }

  /** The pattern `build_verification_regex(length, m)` stands for. */
  function BuildPattern(length: int, m: OptionMap): Pattern
  {
    Pattern(length - 1, MissingAlternatives(m))
  }

  /** `build_verification_regex(length, char_options)`: the pattern text, which reads
      back as a "shorter than `length`" alternative followed by one alternative per
      enabled known key in insertion order. */
  function BuildVerificationRegex(length: int, m: OptionMap): (r: string)
    ensures Parse(r) == Some(BuildPattern(length, m))
    ensures forall s :: Parse(s) == Some(BuildPattern(length, m)) ==> s == r
    ensures StartsWith(r, Head) && |r| >= |Tail| && r[|r| - |Tail|..] == Tail
  {
    var p := BuildPattern(length, m);
    ParseSerialize(p);
    assert forall s :: Parse(s) == Some(p) ==> s == Serialize(p) by {
      forall s | Parse(s) == Some(p)
        ensures s == Serialize(p)
      {
        ParseOnlyReadsSerialize(s, p);
      }
    }
    var body := Head + IntToString(p.shortBound) + "}" + AltsText(p.missing);
    assert Serialize(p) == body + Tail;
    assert Serialize(p)[..|Head|] == Head;
    Serialize(p)
  }

  // ---------------------------------------------------------------------------
  // Reading the text back

  predicate StartsWith(s: string, w: string)
  {
    |w| <= |s| && s[..|w|] == w
  }

  function FirstIndexOf(s: string, ch: char): (k: nat)
    ensures k <= |s|
    ensures forall i :: 0 <= i < k ==> s[i] != ch
    ensures k < |s| ==> s[k] == ch
  {
    if |s| == 0 then 0 else if s[0] == ch then 0 else 1 + FirstIndexOf(s[1..], ch)
  }

  function Prepend(c: CharClass, o: Option<seq<CharClass>>): Option<seq<CharClass>>
  {
    match o
    case None => None
    case Some(cs) => Some([c] + cs)
  }

  /** Reads `|alt|alt...)$`. */
  function ParseAlternatives(s: string): Option<seq<CharClass>>
    decreases |s|
  {
    if s == Tail then Some([])
    else if StartsWith(s, AltText(Lowercase)) then
      Prepend(Lowercase, ParseAlternatives(s[|AltText(Lowercase)|..]))
    else if StartsWith(s, AltText(Uppercase)) then
      Prepend(Uppercase, ParseAlternatives(s[|AltText(Uppercase)|..]))
    else if StartsWith(s, AltText(Specials)) then
      Prepend(Specials, ParseAlternatives(s[|AltText(Specials)|..]))
    else if StartsWith(s, AltText(Digits)) then
      Prepend(Digits, ParseAlternatives(s[|AltText(Digits)|..]))
    else None
  }

  /** Reads a pattern text of the shape `Serialize` writes; `None` for any other text. */
  function Parse(s: string): Option<Pattern>
  {
    if !StartsWith(s, Head) then None
    else
      var rest := s[|Head|..];
      var k := FirstIndexOf(rest, '}');
      if k == |rest| then None
      else
        match ParseInt(rest[..k])
        case None => None
        case Some(bound) =>
          match ParseAlternatives(rest[k + 1..])
          case None => None
          case Some(cs) => Some(Pattern(bound, cs))
  }

  /** No alternative's text is a prefix of another's followed by anything. */
  lemma AltTextsDistinguishable(c: CharClass, d: CharClass, x: string)
    requires StartsWith(AltText(c) + x, AltText(d))
    ensures c == d
  {
    var s := AltText(c) + x;
    assert s[2] == AltText(c)[2] && s[3] == AltText(c)[3];
    assert s[2] == AltText(d)[2] && s[3] == AltText(d)[3];
  }

  lemma {:induction false} ParseAlternativesRoundTrip(cs: seq<CharClass>)
    ensures ParseAlternatives(AltsText(cs) + Tail) == Some(cs)
    decreases |cs|
  {
    if |cs| == 0 {
      assert AltsText(cs) + Tail == Tail;
    } else {
      var c := cs[0];
      var x := AltsText(cs[1..]) + Tail;
      var s := AltsText(cs) + Tail;
      assert s == AltText(c) + x;
      assert s != Tail by { assert s[0] == '|'; }
      assert StartsWith(s, AltText(c));
      assert s[|AltText(c)|..] == x;
      forall d | StartsWith(s, AltText(d))
        ensures d == c
      {
        AltTextsDistinguishable(c, d, x);
      }
      ParseAlternativesRoundTrip(cs[1..]);
      assert [c] + cs[1..] == cs;
    }
  }

  /** The text of a number holds no closing brace. */
  lemma NoBraceInNumber(n: int, i: int)
    requires 0 <= i < |IntToString(n)|
    ensures IntToString(n)[i] != '}'
  {
    var num := IntToString(n);
    if n < 0 && i > 0 {
      assert num[i] == num[1..][i - 1];
    }
  }

  /** Reading `Head`, a number, `}` and the alternatives back. */
  lemma ParseParts(num: string, bound: int, alts: string, cs: seq<CharClass>)
    requires num == IntToString(bound)
    requires ParseAlternatives(alts) == Some(cs)
    ensures Parse(Head + (num + "}" + alts)) == Some(Pattern(bound, cs))
  {
    var s := Head + (num + "}" + alts);
    assert StartsWith(s, Head);
    var rest := num + "}" + alts;
    assert s[|Head|..] == rest;
    forall i | 0 <= i < |num|
      ensures rest[i] != '}'
    {
      NoBraceInNumber(bound, i);
    }
    assert rest[|num|] == '}';
    assert FirstIndexOf(rest, '}') == |num|;
    assert rest[..|num|] == num;
    assert rest[|num| + 1..] == alts;
    IntToStringRoundTrip(bound);
  }

  /** `Parse` undoes `Serialize`: the pattern text determines the pattern. */
  lemma ParseSerialize(p: Pattern)
    ensures Parse(Serialize(p)) == Some(p)
  {
    var num := IntToString(p.shortBound);
    var alts := AltsText(p.missing) + Tail;
    assert Serialize(p) == Head + (num + "}" + alts);
    ParseAlternativesRoundTrip(p.missing);
    ParseParts(num, p.shortBound, alts, p.missing);
  }

  /** One step of reading alternatives: `s` opens with the text of `c`, and the
      classes read are `c` followed by those read from the remainder. */
  lemma ParseAlternativesStep(s: string, c: CharClass, cs: seq<CharClass>)
    requires StartsWith(s, AltText(c))
    requires Prepend(c, ParseAlternatives(s[|AltText(c)|..])) == Some(cs)
    ensures |cs| > 0 && cs[0] == c
    ensures ParseAlternatives(s[|AltText(c)|..]) == Some(cs[1..])
    ensures s == AltText(c) + s[|AltText(c)|..]
  {
    assert s == s[..|AltText(c)|] + s[|AltText(c)|..];
  }

  /** The alternatives are read back only from the text that writes them. */
  lemma {:induction false} ParseAlternativesOnlyReadsAlts(s: string, cs: seq<CharClass>)
    requires ParseAlternatives(s) == Some(cs)
    ensures s == AltsText(cs) + Tail
    decreases |s|
  {
    if s == Tail {
      assert cs == [];
    } else {
      var c: CharClass;
      if StartsWith(s, AltText(Lowercase)) {
        c := Lowercase;
      } else if StartsWith(s, AltText(Uppercase)) {
        c := Uppercase;
      } else if StartsWith(s, AltText(Specials)) {
        c := Specials;
      } else {
        c := Digits;
      }
      ParseAlternativesStep(s, c, cs);
      var rest := s[|AltText(c)|..];
      ParseAlternativesOnlyReadsAlts(rest, cs[1..]);
      assert AltsText(cs) == AltText(c) + AltsText(cs[1..]);
    }
  }

  /** A text `Parse` accepts splits into `Head`, the bound's text, `}` and the
      alternatives' text. */
  lemma ParseSplit(s: string, p: Pattern) returns (num: string, alts: string)
    requires Parse(s) == Some(p)
    ensures s == Head + (num + "}" + alts)
    ensures ParseInt(num) == Some(p.shortBound) && ParseAlternatives(alts) == Some(p.missing)
  {
    var rest := s[|Head|..];
    var k := FirstIndexOf(rest, '}');
    num, alts := rest[..k], rest[k + 1..];
    assert rest == num + "}" + alts;
    assert s == Head + rest;
  }

  /** A text reads as pattern `p` only if it is exactly `Serialize(p)`: together with
      `ParseSerialize`, the writer and the reader are inverse on all pattern texts. */
  lemma ParseOnlyReadsSerialize(s: string, p: Pattern)
    requires Parse(s) == Some(p)
    ensures s == Serialize(p)
  {
    var num, alts := ParseSplit(s, p);
    ParseIntOnlyReadsCanonical(num, p.shortBound);
    ParseAlternativesOnlyReadsAlts(alts, p.missing);
    SerializeRegrouped(p);
  }

  /** `Serialize(p)` regrouped as `Head`, the bound, `}` and the alternatives. */
  lemma SerializeRegrouped(p: Pattern)
    ensures Serialize(p) == Head + (IntToString(p.shortBound) + "}" + (AltsText(p.missing) + Tail))
  {
    Regroup(Head, IntToString(p.shortBound), "}", AltsText(p.missing), Tail);
  }

  lemma Regroup(a: string, b: string, c: string, d: string, e: string)
    ensures a + b + c + d + e == a + (b + c + (d + e))
  {
  }

  // ---------------------------------------------------------------------------
  // What the pattern matches

  /** `.{0,bound}` against a whole string: at most `bound` characters, none a line feed. */
  predicate ShortMatches(bound: nat, t: string)
  {
    |t| <= bound && forall i :: 0 <= i < |t| ==> t[i] != '\n'
  }

  /** The alternative for class `c` against a whole string: no representative of `c`. */
  predicate MissingMatches(c: CharClass, t: string)
  {
    forall i :: 0 <= i < |t| ==> !Represents(c, t[i])
  }

  /** The group `(...)` matches all of `t` through some alternative. */
  predicate GroupMatches(p: Pattern, t: string)
    requires p.shortBound >= 0
  {
    ShortMatches(p.shortBound, t) || exists c :: c in p.missing && MissingMatches(c, t)
  }

  /** `re.match(Serialize(p), s) is not None`: `^` anchors at the start and `$` accepts
      the end of the string or a position just before a final line feed. So a short
      line-feed-free string matches, a string lacking a listed class matches, a short
      line with one final line feed still matches, and a line-feed-free string matches
      only in those ways. */
  predicate Matches(p: Pattern, s: string): (b: bool)
    requires p.shortBound >= 0
    ensures |s| <= p.shortBound && '\n' !in s ==> b
    ensures (exists c :: c in p.missing && MissingMatches(c, s)) ==> b
    ensures |s| > 0 && s[|s| - 1] == '\n' && |s| - 1 <= p.shortBound && '\n' !in s[..|s| - 1] ==> b
    ensures b && '\n' !in s ==> |s| <= p.shortBound || exists c :: c in p.missing && MissingMatches(c, s)
  {
    GroupMatches(p, s) || (|s| > 0 && s[|s| - 1] == '\n' && GroupMatches(p, s[..|s| - 1]))
  }

  /** Every enabled class has a representative in `s`. */
  predicate Covers(m: seq<Entry>, s: string)
  {
    forall c :: Enabled(m, c) ==> exists i :: 0 <= i < |s| && Represents(c, s[i])
  }

  /** Every line-feed-free string shorter than `length` is matched, hence rejected. */
  lemma ShortStringsMatch(length: int, m: OptionMap, s: string)
    requires length >= 1 && |s| < length && '\n' !in s
    ensures Matches(BuildPattern(length, m), s)
  {
  }

  /** For a line-feed-free string of at least `length` characters the pattern matches
      exactly when some enabled class has no representative in it. */
  lemma MatchesIffClassMissing(length: int, m: OptionMap, s: string)
    requires length >= 1 && |s| >= length && '\n' !in s
    ensures Matches(BuildPattern(length, m), s) <==> exists c :: Enabled(m, c) && MissingMatches(c, s)
  {
    var p := BuildPattern(length, m);
    assert !ShortMatches(p.shortBound, s);
    if |s| > 0 {
      assert s[|s| - 1] != '\n';
    }
  }

  /** The double negative: a candidate of exactly `length` characters is NOT matched
      iff it holds a representative of every enabled class. */
  lemma NotMatchedIffCovers(length: int, m: OptionMap, s: string)
    requires length >= 1 && |s| == length && '\n' !in s
    ensures !Matches(BuildPattern(length, m), s) <==> Covers(m, s)
  {
    MatchesIffClassMissing(length, m, s);
  }

  /** With every flag false only the length alternative is left, so any line-feed-free
      string of `length` characters or more passes. */
  lemma AllFalseOnlyChecksLength(length: int, m: OptionMap, s: string)
    requires length >= 1 && |s| >= length && '\n' !in s
    requires forall i :: 0 <= i < |m| ==> !m[i].1
    ensures BuildPattern(length, m).missing == []
    ensures !Matches(BuildPattern(length, m), s)
  {
    NoTruthyEntryNoAlternative(m);
    MatchesIffClassMissing(length, m, s);
  }

  lemma {:induction false} NoTruthyEntryNoAlternative(m: seq<Entry>)
    requires forall i :: 0 <= i < |m| ==> !m[i].1
    ensures MissingAlternatives(m) == []
  {
    if |m| > 0 {
      NoTruthyEntryNoAlternative(m[1..]);
    }
  }
}
